=== FILE: README.md ===
# BudgetBuddy household ledger, modelled in Dafny

BudgetBuddy tracks one household's money. A `FamilyExpenseTracker` holds the
family members (name, earning status, earnings) and the expenses (value,
category, description, date). After every change it rewrites a flat store for
the collection it changed: a header row, then one row per record. On start-up
it rebuilds both lists by reading those stores back. The Streamlit page adds
three rules on top of the tracker:

- the "Add Member" button updates a member with the same name, or adds one;
- the "Add Expense" button refuses a zero value and any value above the
  remaining balance;
- the prediction page decides whether a purchase paid over some months fits
  the remaining balance. When it does not, it proposes category-by-category
  cuts: 20% caps on four non-essential categories, then 10% caps on three
  essential ones.

The model is functional. Records and lists are immutable values, and every
operation is a pure function from one ledger to the next.

- `records.dfy` (`Records`): the member and expense records. `MemberInfo`
  and `ExpenseInfo` hold the stored fields. `Member` and `Expense` add an
  `id` that stands for the identity of the in-memory object. The tracker
  deletes by identity (`list.remove` on objects without `__eq__`), so a
  delete names one record even when two records hold equal fields.
- `store.dfy` (`Store`): the row-level form of the two stores.
  - Saving renders each record as a row of text fields under a fixed header.
  - Loading looks fields up by column name, the way a dictionary-per-row CSV
    reader does: the last column with that name wins, a missing column is an
    error, and a row shorter than the header has no value there.
  - Blank rows are skipped, and the first unreadable row stops the load.
- `numerals.dfy` (`Numerals`): integers as decimal text. Saving writes an
  integer the way Python's `str` does, and loading reads it back the way
  `int` does.
- `tracker.dfy` (`Tracker`): the ledger itself.
  - `Ledger` holds the two lists and the two stores. A store is
    `Option<Table>`, where `None` means the file does not exist.
  - The operations are the mutations, the totals, and construction from the
    stores (`Open`).
  - `Valid` is the invariant every reachable ledger keeps. Ids are distinct
    (`WellKeyed`). Each store holds exactly its list, or the list is empty and
    the store has not been rewritten since it was found holding no records
    (`Saved`).
- `entry.dfy` (`Entry`): the page's member upsert and guarded expense add.
- `advisor.dfy` (`Advisor`): the affordability decision and the reduction
  planner. They work over exact reals, and spending is grouped per category.
- `seqs.dfy`, `wrappers.dfy`: sequence helpers, plus `Option`/`Result`.

`Entry.UpsertMember` requires `WellKeyed`. Python objects are always distinct
from one another, and `Open` and every mutation establish or keep this
property, so the requirement excludes no state the program can reach.

Three behaviours of the code that the model keeps:

- Deleting a record that is not in its list raises (`list.remove`).
  `DeleteMember` and `DeleteExpense` return `Failure(Missing(id))` and leave
  the ledger as it was.
- The planner visits Entertainment before Food. With Food at 1000 and
  Entertainment at 500, the suggestions are Entertainment 100, then Food 200
  (`Advisor.ShortfallExample`).
- Earnings and values are read back with `int`, so they are integers.

## Model

| member | source | states |
|---|---|---|
| Store.MemberTableLayout | Budgetbuddy/main.py:26-32 | a saved member store is the header `Name, Earning Status, Earnings` then one row per member in list order, status as `True`/`False`, earnings in decimal |
| Store.ExpenseTableLayout | Budgetbuddy/main.py:44-52 | a saved expense store is the header `Value, Category, Description, Date` then one row per expense in list order, value in decimal |
| Store.ParseMemberRow | Budgetbuddy/main.py:39-41 | a member row reads iff it has a Name value, the store has an Earning Status column and the Earnings text is an integer; the flag is true exactly for the text `True` |
| Store.ParseExpenseRow | Budgetbuddy/main.py:59-61 | an expense row reads iff its Value text is an integer and Category, Description and Date have values, which are taken as text |
| Store.ParseRecords | Budgetbuddy/main.py:38-41 | a load succeeds iff every non-blank row reads, and then yields one record per non-blank row, in file order, each the reading of its row; on failure the error is that of the first unreadable row |
| Store.ParseTable | Budgetbuddy/main.py:34-39 | an absent or empty store yields no records; any other store is read with its first row as the header and the rest as data rows; a store yields no records only when it is absent or holds no non-blank data rows |
| Store.MemberRowRoundTrip | Budgetbuddy/main.py:32-41 | reading a member row under the saved header gives back the member that was written |
| Store.ExpenseRowRoundTrip | Budgetbuddy/main.py:50-61 | reading an expense row under the saved header gives back the expense that was written |
| Store.ParseRenderedRows | Budgetbuddy/main.py:39-41 | when each rendered row reads back to its record, reading all rendered rows gives the records back in order |
| Store.MemberTableRoundTrip | Budgetbuddy/main.py:28-42 | loading a saved member store reproduces the same members in the same order |
| Store.ExpenseTableRoundTrip | Budgetbuddy/main.py:46-62 | loading a saved expense store reproduces the same expenses in the same order |
| Store.BadEarningsRejected | Budgetbuddy/main.py:41 | a member row whose Earnings text is not an integer makes the load fail |
| Store.BadValueRejected | Budgetbuddy/main.py:61 | an expense row whose Value text is not an integer makes the load fail |
| Store.BlankRowsParseEmpty | Budgetbuddy/main.py:38-39 | a store with only a header and blank rows yields no records |
| Numerals.IntText | Budgetbuddy/main.py:32 | an integer is written as a minus sign, present exactly for negatives, then digits with no leading zero (only 0 itself starts with `0`); a non-negative integer's text is digits alone |
| Numerals.ParseInt | Budgetbuddy/main.py:41 | an optional sign followed by one or more digits reads as its decimal value, negated for `-`, leading zeros allowed; the empty text and any text with a non-digit after the sign position are rejected |
| Numerals.ParseIntText | Budgetbuddy/main.py:32-41 | reading back the text written for an integer gives the same integer |
| Numerals.ParseIntRejects | Budgetbuddy/main.py:41 | a character that is neither a digit nor a leading sign makes the integer read fail |
| Tracker.AddMember | Budgetbuddy/main.py:64-67 | exactly one member with the given fields and a fresh id is appended, earlier members unchanged, the member store rewritten, expenses untouched, validity kept |
| Tracker.UpdateMember | Budgetbuddy/main.py:69-72 | only status and earnings of the member with that id change; ids, names, other members and the length are unchanged; the member store is rewritten |
| Tracker.DeleteMember | Budgetbuddy/main.py:74-76 | fails iff no member has the id; otherwise removes the first member with it, keeping the rest in order, and rewrites the member store |
| Tracker.DeleteMemberKeepsValid | Budgetbuddy/main.py:74-76 | a successful member delete keeps the ledger valid, shortens the list by one and leaves no member with that id |
| Tracker.AddExpense | Budgetbuddy/main.py:78-81 | merging never happens: exactly one expense is appended even when one of the same category exists; earlier expenses unchanged, expense store rewritten |
| Tracker.DeleteExpense | Budgetbuddy/main.py:83-85 | fails iff no expense has the id; otherwise removes the first expense with it, keeping the rest in order, and rewrites the expense store |
| Tracker.DeleteExpenseKeepsValid | Budgetbuddy/main.py:83-85 | a successful expense delete keeps the ledger valid, shortens the list by one and leaves no expense with that id |
| Tracker.TotalEarnings | Budgetbuddy/main.py:87-88 | total earnings are 0 with no members, the one member's earnings with one, and never negative when no member's earnings are |
| Tracker.TotalExpenditure | Budgetbuddy/main.py:90-91 | total expenditure is 0 with no expenses, the one expense's value with one, and never negative when no value is |
| Tracker.AddMemberRaisesEarnings | Budgetbuddy/main.py:64-67 | adding a member raises total earnings by exactly its earnings |
| Tracker.DeleteMemberLowersEarnings | Budgetbuddy/main.py:87-88 | deleting a member lowers total earnings by exactly the removed member's earnings |
| Tracker.UpdateMemberShiftsEarnings | Budgetbuddy/main.py:69-72 | updating a member moves total earnings by the change of that member's earnings |
| Tracker.AddExpenseRaisesExpenditure | Budgetbuddy/main.py:90-91 | adding an expense of value v raises total expenditure by exactly v |
| Tracker.DeleteExpenseLowersExpenditure | Budgetbuddy/main.py:90-91 | deleting an expense lowers total expenditure by exactly the removed expense's value |
| Tracker.AddMembers | Budgetbuddy/main.py:39-42 | re-adding loaded members appends them in order; the member store is rewritten iff at least one was added |
| Tracker.AddExpenses | Budgetbuddy/main.py:59-62 | re-adding loaded expenses appends them in order; the expense store is rewritten iff at least one was added |
| Tracker.Open | Budgetbuddy/main.py:18-24 | construction succeeds iff both stores read; it then holds exactly the loaded records in order and is valid; with no stores it is empty |
| Tracker.ReloadMembers | Budgetbuddy/main.py:26-42 | a saved member store reads back as exactly the members' fields in order, also when it holds no records |
| Tracker.ReloadExpenses | Budgetbuddy/main.py:44-62 | a saved expense store reads back as exactly the expenses' fields in order, also when it holds no records |
| Tracker.ReopenRoundTrip | Budgetbuddy/main.py:26-62 | re-opening the stores of a valid ledger succeeds with the same fields in the same order and leaves both stores as they were |
| Entry.UpsertMember | Budgetbuddy/app.py:116-122 | the first member with exactly that name gets the new status and earnings and nothing else changes; with no such member one is appended; afterwards the name is present |
| Entry.UpdateOneMember | Budgetbuddy/app.py:121 | updating the member found by name through its id changes that member's status and earnings only, since ids are distinct |
| Entry.UpsertKeepsNamesDistinct | Budgetbuddy/app.py:116-122 | if names are distinct before an upsert they are distinct after it |
| Entry.GuardedAddExpense | Budgetbuddy/app.py:131-144 | an expense is added iff its value is non-zero and at most earnings minus expenditure; after an add, expenditure does not exceed earnings |
| Advisor.ReductionPass | Budgetbuddy/app.py:315-322 | a pass on a non-positive deficit suggests nothing; on a positive one it never leaves the deficit negative; the cuts sum to the deficit removed |
| Advisor.PassOrder | Budgetbuddy/app.py:315-319 | a pass names the categories of its list that have spending, in list order, stopping early only once the deficit is gone |
| Advisor.PassCuts | Budgetbuddy/app.py:317-322 | each cut of a pass is min(rate x category spending, deficit standing), made while that deficit was positive |
| Advisor.PassNeverRaisesDeficit | Budgetbuddy/app.py:318-322 | with no negative category spending, a pass never raises the deficit |
| Advisor.Reduce | Budgetbuddy/app.py:312-333 | the plan never leaves the deficit negative, and its cuts sum to the deficit removed, so to at most the initial deficit |
| Advisor.ReduceOrder | Budgetbuddy/app.py:307-333 | plan categories follow the fixed order Entertainment, Food, Transportation, Miscellaneous, Housing, Medical, Investment, each at most once, only those with spending, cut short only at zero deficit; empty iff none has spending |
| Advisor.ReduceCuts | Budgetbuddy/app.py:315-333 | each cut is min(20% or 10% of its category's spending, deficit standing), and essential cuts happen only while deficit remains |
| Advisor.ReduceSpentOnly | Budgetbuddy/app.py:315-333 | a plan names only categories that have recorded spending |
| Advisor.ReduceNeverRaisesDeficit | Budgetbuddy/app.py:318-333 | with no negative category spending, the final deficit lies between zero and the initial deficit |
| Advisor.Assess | Budgetbuddy/app.py:284-303 | affordable iff earnings minus expenditure is at least cost / months + savings; otherwise the deficit is the positive difference and the plan cuts it |
| Advisor.AssessAsWritten | Budgetbuddy/app.py:299-315 | the page as written ends in an unbound-name error exactly when the purchase is affordable |
| Advisor.AsWrittenAgreesOnShortfall | Budgetbuddy/app.py:299-333 | when the purchase is not affordable, the page as written agrees with the corrected assessment |
| Advisor.AffordablePurchaseFailsAsWritten | Budgetbuddy/app.py:299-315 | an affordable purchase makes the page as written fail, where the corrected assessment reports it affordable |
| Advisor.CategoryTotals | Budgetbuddy/app.py:310 | the grouped spending has an entry for exactly the categories with at least one expense |
| Advisor.SpentCategories | Budgetbuddy/app.py:310 | the grouped categories are distinct and are exactly the categories of the expenses |
| Advisor.CategoryTotalIsSum | Budgetbuddy/app.py:310 | a category's grouped total equals the sum of the values of that category's expenses, taken in recorded order |
| Advisor.SpendAddsUp | Budgetbuddy/app.py:284-310 | the per-category totals add up to the total expenditure, and each one is the total of that category's expenses alone |
| Advisor.AdviseFor | Budgetbuddy/app.py:284-333 | for the ledger, affordable iff the remaining balance covers the required balance; otherwise the deficit is the positive difference and the plan is the reduction over the ledger's per-category totals, naming only categories with expenses |
| Advisor.ShortfallExample | Budgetbuddy/app.py:284-333 | earnings 10000, expenditure 9500, 6000 over 6 months, saving 1000, Food 1000 and Entertainment 500: deficit 1500, Entertainment cut 100, Food cut 200, 1200 left |

## Findings

| source | as written | input that shows it | evidently intended | confidence | as-written member | corrected member |
|---|---|---|---|---|---|---|
| Budgetbuddy/app.py:299-315 | lines 312-341 are dedented out of the `else`. The suggestion loop also runs after the affordable message, and it reads `non_essential_categories`, which is bound only in the `else`, so the run stops with a `NameError` | earnings 10000, expenditure 0, item 6000 over 6 months, savings 1000 | an affordable purchase ends with the success message and no suggestions | high; not executed | Advisor.AssessAsWritten (exhibited by Advisor.AffordablePurchaseFailsAsWritten) | Advisor.Assess |

## Left out

- File-system I/O is not modelled. That covers opening, existence checks,
  overwriting a whole file and its non-atomicity, the CSV character encoding
  and its quoting. A store is a table of text fields.
- Tracker.Open reports only the error of an unreadable row. The source
  re-adds each row as it reads it, so the rows before the bad one have
  already been rewritten to the store. Reading and rewriting the same file
  at once is not modelled either.
- Numerals.ParseInt accepts only an optional sign and ASCII digits. Python's
  `int` also accepts surrounding whitespace, underscores between digits and
  non-ASCII digits, so the model rejects some rows Python would read.
- Store.ParseMemberRow refuses a row too short to reach its Name column. The
  source would store `None` as the name.
- Store.ParseExpenseRow refuses a row too short to reach its Category,
  Description or Date column. The source would store `None` in that field.
- ExpenseInfo.date holds the text the store writes for a date. The page adds
  a `datetime.date` object, which the store writes as its `str` and a reload
  returns as that text. So the round trips of Store and Tracker give back the
  same fields as text, not the same date object.
- The Streamlit UI is not modelled. That covers widgets, reruns, session
  state, `.title()` casing of names and descriptions, and the warning
  messages. The widgets' minimum values are not imposed on the model's
  inputs. The one exception is months ≥ 1, which the division needs.
- Authentication (bcrypt hashing, the users file read through pandas) is a
  foreign library call.
- The data overview and charts (month filtering with pandas, matplotlib and
  seaborn plots) are presentation.
- Advisor.Reduce does not model `round(reduction, 2)`. It only affects what
  is displayed; the deficit is lowered by the unrounded amount. Floats are
  modelled as exact reals.
- Advisor.AdviseFor takes the totals and category sums from the ledger's
  lists. The page re-reads them from the stores through pandas; under
  `Valid` the stores hold the same records. A store that the tracker reads
  as empty but pandas cannot parse makes the page fail, where the model
  reports totals of 0. Examples are an existing empty file
  (`EmptyDataError` at app.py:272/278) and a header-only member store
  without an `Earnings` column (`KeyError` at app.py:279).
- `Budgetbuddy/venu.py` is a single messaging-service network call with no
  logic.

=== FILE: advisor.dfy ===
/**
 * The prediction page: whether a purchase paid over some months fits the
 * remaining balance, and, when it does not, which categories to cut and by
 * how much. Amounts are exact reals; the page's rounding for display is not
 * part of the model.
 */
module Advisor {
  import opened Seqs
  import opened Records
  import opened Tracker

  /** Cut first, at up to 20% of their spending each, in this order. */
  const NonEssential: seq<string> := ["Entertainment", "Food", "Transportation", "Miscellaneous"]
  /** Cut only if the deficit survives the first pass, at up to 10% each, in this order. */
  const Essential: seq<string> := ["Housing", "Medical", "Investment"]

  const NonEssentialRate: real := 0.20
  const EssentialRate: real := 0.10

  datatype Suggestion = Suggestion(category: string, amount: real)

  /** The suggestions made, and the deficit left after them. */
  datatype Plan = Plan(suggestions: seq<Suggestion>, deficit: real)

  function Min(a: real, b: real): real {
    if a <= b then a else b
  }

  /** The sum of the suggested amounts. */
  function Total(s: seq<Suggestion>): real {
    if s == [] then 0.0 else s[0].amount + Total(s[1..])
  }

  function SuggestionCategory(s: Suggestion): string { s.category }

  function Categories(s: seq<Suggestion>): seq<string> {
    Map(s, SuggestionCategory)
  }

  predicate NonNegative(spend: map<string, int>) {
    forall c :: c in spend ==> spend[c] >= 0
  }

  /** The categories of `cats` that have recorded spending, in list order. */
  function Present(cats: seq<string>, spend: map<string, int>): (r: seq<string>)
    ensures forall c :: c in r <==> c in cats && c in spend
  {
    if cats == [] then []
    else if cats[0] in spend then [cats[0]] + Present(cats[1..], spend)
    else Present(cats[1..], spend)
  }

  /**
   * One pass over a fixed category list: for each category with recorded
   * spending, stop if the deficit is gone, else suggest cutting the smaller of
   * `rate` of its spending and the deficit, and lower the deficit by that.
   */
  function ReductionPass(cats: seq<string>, rate: real, spend: map<string, int>, deficit: real): (p: Plan)
    ensures deficit <= 0.0 ==> p == Plan([], deficit)
    ensures deficit > 0.0 ==> p.deficit >= 0.0
    ensures Total(p.suggestions) == deficit - p.deficit
    decreases |cats|
  {
    if cats == [] then Plan([], deficit)
    else if cats[0] !in spend then ReductionPass(cats[1..], rate, spend, deficit)
    else if deficit <= 0.0 then Plan([], deficit)
    else
      var reduction := Cut(spend[cats[0]], rate, deficit);
      var rest := ReductionPass(cats[1..], rate, spend, deficit - reduction);
      Plan([Suggestion(cats[0], reduction)] + rest.suggestions, rest.deficit)
  }

  /** The cut suggested for a category: `rate` of its spending, but never more than the deficit standing. */
  function Cut(spent: int, rate: real, standing: real): real {
    Min(spent as real * rate, standing)
  }

  /**
   * Each suggestion, in order, is the capped cut at `rate` of a category with
   * spending, made while the deficit standing was positive; the first stands
   * against `deficit`, each later one against what the earlier ones left.
   */
  ghost predicate CappedCuts(s: seq<Suggestion>, spend: map<string, int>, deficit: real, rate: real)
    decreases |s|
  {
    s != [] ==>
      && s[0].category in spend
      && deficit > 0.0
      && s[0].amount == Cut(spend[s[0].category], rate, deficit)
      && CappedCuts(s[1..], spend, deficit - s[0].amount, rate)
  }

  lemma TotalConcat(a: seq<Suggestion>, b: seq<Suggestion>)
    ensures Total(a + b) == Total(a) + Total(b)
  {
    if a != [] {
      assert (a + b)[1..] == a[1..] + b;
      TotalConcat(a[1..], b);
    } else {
      assert a + b == b;
    }
  }

  lemma CategoriesCons(x: Suggestion, s: seq<Suggestion>)
    ensures Categories([x] + s) == [x.category] + Categories(s)
  {
    assert forall k :: 0 < k < |s| + 1 ==> ([x] + s)[k] == s[k - 1];
  }

  /**
   * The categories a pass names are the present categories of its list, in
   * list order, cut short only once the deficit is gone.
   */
  lemma {:induction false} PassOrder(cats: seq<string>, rate: real, spend: map<string, int>, deficit: real)
    ensures Categories(ReductionPass(cats, rate, spend, deficit).suggestions) <= Present(cats, spend)
    ensures |ReductionPass(cats, rate, spend, deficit).suggestions| < |Present(cats, spend)| ==>
      ReductionPass(cats, rate, spend, deficit).deficit <= 0.0
    decreases |cats|
  {
    var p := ReductionPass(cats, rate, spend, deficit);
    if cats == [] {
    } else if cats[0] !in spend {
      assert Present(cats, spend) == Present(cats[1..], spend);
      PassOrder(cats[1..], rate, spend, deficit);
    } else if deficit <= 0.0 {
      assert p.suggestions == [];
    } else {
      var head := Suggestion(cats[0], Cut(spend[cats[0]], rate, deficit));
      var rest := ReductionPass(cats[1..], rate, spend, deficit - head.amount);
      assert p == Plan([head] + rest.suggestions, rest.deficit);
      assert Present(cats, spend) == [cats[0]] + Present(cats[1..], spend);
      PassOrder(cats[1..], rate, spend, deficit - head.amount);
      CategoriesCons(head, rest.suggestions);
      PrefixCons(cats[0], Categories(rest.suggestions), Present(cats[1..], spend));
    }
  }

  /** Every cut of a pass is the smaller of `rate` of its category's spending and the deficit standing then. */
  lemma {:induction false} PassCuts(cats: seq<string>, rate: real, spend: map<string, int>, deficit: real)
    ensures CappedCuts(ReductionPass(cats, rate, spend, deficit).suggestions, spend, deficit, rate)
    decreases |cats|
  {
    if cats == [] {
    } else if cats[0] !in spend {
      PassCuts(cats[1..], rate, spend, deficit);
    } else if deficit <= 0.0 {
    } else {
      var reduction := Cut(spend[cats[0]], rate, deficit);
      var rest := ReductionPass(cats[1..], rate, spend, deficit - reduction);
      PassCuts(cats[1..], rate, spend, deficit - reduction);
      assert ([Suggestion(cats[0], reduction)] + rest.suggestions)[1..] == rest.suggestions;
    }
  }

  /** With no negative spending, a pass never raises the deficit. */
  lemma {:induction false} PassNeverRaisesDeficit(cats: seq<string>, rate: real, spend: map<string, int>, deficit: real)
    requires NonNegative(spend) && rate >= 0.0
    ensures ReductionPass(cats, rate, spend, deficit).deficit <= deficit
    decreases |cats|
  {
    if cats == [] {
    } else if cats[0] !in spend {
      PassNeverRaisesDeficit(cats[1..], rate, spend, deficit);
    } else if deficit <= 0.0 {
    } else {
      var reduction := Cut(spend[cats[0]], rate, deficit);
      PassNeverRaisesDeficit(cats[1..], rate, spend, deficit - reduction);
    }
  }

  // ---------------------------------------------------------------------------
  // Both passes
  // ---------------------------------------------------------------------------

  /** The share of a category's spending that may be cut. */
  function RateOf(c: string): real {
    if c in NonEssential then NonEssentialRate else EssentialRate
  }

  /** All categories the planner looks at, in the order it visits them. */
  const Visiting: seq<string> := NonEssential + Essential

  /**
   * The reduction plan for a positive deficit: the non-essential pass, then
   * the essential pass only if some deficit is left.
   */
  function Reduce(spend: map<string, int>, deficit: real): (p: Plan)
    requires deficit > 0.0
    ensures p.deficit >= 0.0
    ensures Total(p.suggestions) == deficit - p.deficit
  {
    var first := ReductionPass(NonEssential, NonEssentialRate, spend, deficit);
    if first.deficit > 0.0 then
      var second := ReductionPass(Essential, EssentialRate, spend, first.deficit);
      TotalConcat(first.suggestions, second.suggestions);
      Plan(first.suggestions + second.suggestions, second.deficit)
    else
      first
  }

  /** As `CappedCuts`, with each category cut at its own rate. */
  ghost predicate PlannedCuts(s: seq<Suggestion>, spend: map<string, int>, deficit: real)
    decreases |s|
  {
    s != [] ==>
      && s[0].category in spend
      && deficit > 0.0
      && s[0].amount == Cut(spend[s[0].category], RateOf(s[0].category), deficit)
      && PlannedCuts(s[1..], spend, deficit - s[0].amount)
  }

  lemma VisitingDistinct()
    ensures Distinct(Visiting)
    ensures forall c :: c in Essential ==> c !in NonEssential
  {
    assert Visiting == ["Entertainment", "Food", "Transportation", "Miscellaneous", "Housing", "Medical", "Investment"];
    var firsts := "EFTMHMI";
    assert forall i :: 0 <= i < |Visiting| ==> Visiting[i][0] == firsts[i];
    assert Visiting[3][1] != Visiting[5][1];
  }

  lemma {:induction false} PresentConcat(a: seq<string>, b: seq<string>, spend: map<string, int>)
    ensures Present(a + b, spend) == Present(a, spend) + Present(b, spend)
    decreases |a|
  {
    if a == [] {
      assert a + b == b;
    } else {
      assert (a + b)[1..] == a[1..] + b;
      PresentConcat(a[1..], b, spend);
    }
  }

  lemma {:induction false} PresentDistinct(cats: seq<string>, spend: map<string, int>)
    requires Distinct(cats)
    ensures Distinct(Present(cats, spend))
    decreases |cats|
  {
    if cats != [] {
      DistinctTail(cats);
      PresentDistinct(cats[1..], spend);
    }
  }

  lemma CategoriesConcat(a: seq<Suggestion>, b: seq<Suggestion>)
    ensures Categories(a + b) == Categories(a) + Categories(b)
  {
  }

  /**
   * The categories of a plan are the categories with spending in the fixed
   * visiting order (never by size), each at most once, cut short only when
   * the deficit is gone; the plan is empty exactly when no listed category
   * has spending.
   */
  lemma ReduceOrder(spend: map<string, int>, deficit: real)
    requires deficit > 0.0
    ensures Categories(Reduce(spend, deficit).suggestions) <= Present(Visiting, spend)
    ensures |Reduce(spend, deficit).suggestions| < |Present(Visiting, spend)| ==> Reduce(spend, deficit).deficit == 0.0
    ensures Distinct(Categories(Reduce(spend, deficit).suggestions))
    ensures Reduce(spend, deficit).suggestions == [] <==> Present(Visiting, spend) == []
  {
    var p := Reduce(spend, deficit);
    var first := ReductionPass(NonEssential, NonEssentialRate, spend, deficit);
    var all := Present(Visiting, spend);
    PassOrder(NonEssential, NonEssentialRate, spend, deficit);
    PresentConcat(NonEssential, Essential, spend);
    if first.deficit > 0.0 {
      var second := ReductionPass(Essential, EssentialRate, spend, first.deficit);
      assert p.suggestions == first.suggestions + second.suggestions;
      PassOrder(Essential, EssentialRate, spend, first.deficit);
      assert Categories(first.suggestions) == Present(NonEssential, spend);
      CategoriesConcat(first.suggestions, second.suggestions);
      PrefixConcat(Present(NonEssential, spend), Categories(second.suggestions), Present(Essential, spend));
    } else {
      assert p == first;
      PrefixExtend(Categories(first.suggestions), Present(NonEssential, spend), Present(Essential, spend));
    }
    VisitingDistinct();
    PresentDistinct(Visiting, spend);
    DistinctPrefix(Categories(p.suggestions), all);
  }


  /** Capped cuts of categories that all have the pass's rate are planned cuts. */
  lemma {:induction false} CappedArePlanned(s: seq<Suggestion>, spend: map<string, int>, deficit: real, rate: real)
    requires CappedCuts(s, spend, deficit, rate)
    requires forall k :: 0 <= k < |s| ==> RateOf(s[k].category) == rate
    ensures PlannedCuts(s, spend, deficit)
    decreases |s|
  {
    if s != [] {
      CappedArePlanned(s[1..], spend, deficit - s[0].amount, rate);
    }
  }

  /** A pass over categories that all share one rate makes planned cuts. */
  lemma PassPlannedCuts(cats: seq<string>, rate: real, spend: map<string, int>, deficit: real)
    requires forall c :: c in cats ==> RateOf(c) == rate
    ensures PlannedCuts(ReductionPass(cats, rate, spend, deficit).suggestions, spend, deficit)
  {
    var s := ReductionPass(cats, rate, spend, deficit).suggestions;
    PassOrder(cats, rate, spend, deficit);
    PassCuts(cats, rate, spend, deficit);
    forall k | 0 <= k < |s| ensures RateOf(s[k].category) == rate {
      assert Categories(s)[k] == Present(cats, spend)[k];
    }
    CappedArePlanned(s, spend, deficit, rate);
  }

  /** Planned cuts followed by planned cuts against the deficit they leave are planned cuts. */
  lemma {:induction false} JoinPlannedCuts(s1: seq<Suggestion>, s2: seq<Suggestion>, spend: map<string, int>, deficit: real)
    requires PlannedCuts(s1, spend, deficit)
    requires PlannedCuts(s2, spend, deficit - Total(s1))
    ensures PlannedCuts(s1 + s2, spend, deficit)
    decreases |s1|
  {
    if s1 == [] {
      assert s1 + s2 == s2;
    } else {
      JoinPlannedCuts(s1[1..], s2, spend, deficit - s1[0].amount);
      assert (s1 + s2)[1..] == s1[1..] + s2;
    }
  }

  /** A plan only names categories with recorded spending. */
  lemma ReduceSpentOnly(spend: map<string, int>, deficit: real)
    requires deficit > 0.0
    ensures forall s :: s in Reduce(spend, deficit).suggestions ==> s.category in spend
  {
    var p := Reduce(spend, deficit).suggestions;
    ReduceOrder(spend, deficit);
    forall s | s in p ensures s.category in spend {
      var k :| 0 <= k < |p| && p[k] == s;
      assert Categories(p)[k] == Present(Visiting, spend)[k];
    }
  }

  /** Every cut of a plan is the smaller of its category's rate of spending and the deficit standing then. */
  lemma ReduceCuts(spend: map<string, int>, deficit: real)
    requires deficit > 0.0
    ensures PlannedCuts(Reduce(spend, deficit).suggestions, spend, deficit)
  {
    var first := ReductionPass(NonEssential, NonEssentialRate, spend, deficit);
    PassPlannedCuts(NonEssential, NonEssentialRate, spend, deficit);
    if first.deficit > 0.0 {
      VisitingDistinct();
      PassPlannedCuts(Essential, EssentialRate, spend, first.deficit);
      JoinPlannedCuts(first.suggestions, ReductionPass(Essential, EssentialRate, spend, first.deficit).suggestions, spend, deficit);
    }
  }

  /** With no negative spending the plan never raises the deficit; it never drives it below zero. */
  lemma ReduceNeverRaisesDeficit(spend: map<string, int>, deficit: real)
    requires deficit > 0.0 && NonNegative(spend)
    ensures 0.0 <= Reduce(spend, deficit).deficit <= deficit
    ensures Total(Reduce(spend, deficit).suggestions) <= deficit
  {
    var first := ReductionPass(NonEssential, NonEssentialRate, spend, deficit);
    PassNeverRaisesDeficit(NonEssential, NonEssentialRate, spend, deficit);
    if first.deficit > 0.0 {
      PassNeverRaisesDeficit(Essential, EssentialRate, spend, first.deficit);
    }
  }

  // ---------------------------------------------------------------------------
  // The affordability decision
  // ---------------------------------------------------------------------------

  /** The monthly installment plus the savings wanted each month. */
  function RequiredBalance(cost: int, months: int, savings: int): real
    requires months >= 1
  {
    cost as real / months as real + savings as real
  }

  datatype Assessment =
    | Affordable
    | Shortfall(deficit: real, plan: Plan)

  /**
   * The purchase is affordable when the remaining balance covers the required
   * balance; otherwise the deficit is the difference and the plan cuts it.
   */
  function Assess(earnings: int, expenditure: int, spend: map<string, int>, cost: int, months: int, savings: int): (a: Assessment)
    requires months >= 1
    ensures a.Affordable? <==> (earnings - expenditure) as real >= RequiredBalance(cost, months, savings)
    ensures a.Shortfall? ==> a.deficit > 0.0
    ensures a.Shortfall? ==> (earnings - expenditure) as real + a.deficit == RequiredBalance(cost, months, savings)
    ensures a.Shortfall? ==> a.plan == Reduce(spend, a.deficit)
  {
    var remaining := (earnings - expenditure) as real;
    var required := RequiredBalance(cost, months, savings);
    if remaining >= required then Affordable
    else Shortfall(required - remaining, Reduce(spend, required - remaining))
  }

  /** How the page run ends: with an assessment, or with an error naming an unbound variable. */
  datatype PageRun = Completed(assessment: Assessment) | NameError(unbound: string)

  /**
   * The page as written: after reporting an affordable purchase it still runs
   * the suggestion loop, whose category lists were bound only on the
   * insufficient-balance branch, so the run stops with an error there.
   */
  function AssessAsWritten(earnings: int, expenditure: int, spend: map<string, int>, cost: int, months: int, savings: int): (r: PageRun)
    requires months >= 1
    ensures r.NameError? <==> (earnings - expenditure) as real >= RequiredBalance(cost, months, savings)
    ensures r.Completed? ==> r.assessment.Shortfall?
  {
    var remaining := (earnings - expenditure) as real;
    var required := RequiredBalance(cost, months, savings);
    if remaining >= required then NameError("non_essential_categories")
    else Completed(Shortfall(required - remaining, Reduce(spend, required - remaining)))
  }

  /** An affordable purchase makes the page as written fail. */
  lemma AffordablePurchaseFailsAsWritten()
    ensures AssessAsWritten(10000, 0, map[], 6000, 6, 1000) == NameError("non_essential_categories")
    ensures Assess(10000, 0, map[], 6000, 6, 1000) == Affordable
  {
  }

  /** Where the purchase is not affordable, the page as written and the corrected assessment agree. */
  lemma AsWrittenAgreesOnShortfall(earnings: int, expenditure: int, spend: map<string, int>, cost: int, months: int, savings: int)
    requires months >= 1
    requires (earnings - expenditure) as real < RequiredBalance(cost, months, savings)
    ensures AssessAsWritten(earnings, expenditure, spend, cost, months, savings)
      == Completed(Assess(earnings, expenditure, spend, cost, months, savings))
  {
  }

  // ---------------------------------------------------------------------------
  // Spending per category, as the page groups the expense store
  // ---------------------------------------------------------------------------

  /** The summed value of the expenses of one category. */
  function CategoryTotal(es: seq<Expense>, c: string): int {
    if es == [] then 0
    else (if es[0].info.category == c then es[0].info.value else 0) + CategoryTotal(es[1..], c)
  }

  /** The expenses of one category, in the order they were recorded. */
  function OfCategory(es: seq<Expense>, c: string): (r: seq<Expense>)
    ensures forall e :: e in r <==> e in es && e.info.category == c
  {
    if es == [] then []
    else if es[0].info.category == c then [es[0]] + OfCategory(es[1..], c)
    else OfCategory(es[1..], c)
  }

  /** A category's total is the total expenditure of that category's expenses alone. */
  lemma {:induction false} CategoryTotalIsSum(es: seq<Expense>, c: string)
    ensures CategoryTotal(es, c) == TotalExpenditure(OfCategory(es, c))
    decreases |es|
  {
    if es != [] {
      CategoryTotalIsSum(es[1..], c);
      if es[0].info.category == c {
        var rest := OfCategory(es[1..], c);
        assert ([es[0]] + rest)[1..] == rest;
      }
    }
  }

  function CategorySet(es: seq<Expense>): set<string> {
    set i | 0 <= i < |es| :: es[i].info.category
  }

  /** Category to summed value, for the categories that have at least one expense. */
  function CategoryTotals(es: seq<Expense>): (m: map<string, int>)
    ensures m.Keys == CategorySet(es)
  {
    map c | c in CategorySet(es) :: CategoryTotal(es, c)
  }

  /** The categories of `es`, each once. */
  function SpentCategories(es: seq<Expense>): (cs: seq<string>)
    ensures Distinct(cs)
    ensures forall c :: c in cs <==> c in CategorySet(es)
  {
    if es == [] then []
    else
      var rest := SpentCategories(es[1..]);
      assert forall c :: c in CategorySet(es) <==> c == es[0].info.category || c in CategorySet(es[1..]) by {
        forall c ensures c in CategorySet(es) <==> c == es[0].info.category || c in CategorySet(es[1..]) {
          if c in CategorySet(es[1..]) {
            var i :| 0 <= i < |es[1..]| && es[1..][i].info.category == c;
            assert es[i + 1].info.category == c;
          }
          if c in CategorySet(es) && c != es[0].info.category {
            var i :| 0 <= i < |es| && es[i].info.category == c;
            assert es[1..][i - 1].info.category == c;
          }
        }
      }
      if es[0].info.category in rest then rest else [es[0].info.category] + rest
  }

  /** The summed spending of the categories `cs`. */
  function SpendOver(cs: seq<string>, es: seq<Expense>): int {
    if cs == [] then 0 else CategoryTotal(es, cs[0]) + SpendOver(cs[1..], es)
  }

  lemma {:induction false} SpendOverNothing(cs: seq<string>)
    ensures SpendOver(cs, []) == 0
    decreases |cs|
  {
    if cs != [] {
      SpendOverNothing(cs[1..]);
    }
  }

  /** The first expense adds its value to the spending of `cs` exactly when its category is listed. */
  lemma {:induction false} SpendOverStep(cs: seq<string>, es: seq<Expense>)
    requires es != [] && Distinct(cs)
    ensures SpendOver(cs, es) == SpendOver(cs, es[1..]) + (if es[0].info.category in cs then es[0].info.value else 0)
    decreases |cs|
  {
    if cs != [] {
      DistinctTail(cs);
      SpendOverStep(cs[1..], es);
    }
  }

  /** Summed over distinct categories that cover every expense, the category totals give the total expenditure. */
  lemma {:induction false} SpendOverCover(cs: seq<string>, es: seq<Expense>)
    requires Distinct(cs)
    requires forall i :: 0 <= i < |es| ==> es[i].info.category in cs
    ensures SpendOver(cs, es) == TotalExpenditure(es)
    decreases |es|
  {
    if es == [] {
      SpendOverNothing(cs);
    } else {
      SpendOverStep(cs, es);
      SpendOverCover(cs, es[1..]);
    }
  }

  /** The per-category totals the planner uses add up to the total expenditure it compares against. */
  lemma SpendAddsUp(es: seq<Expense>)
    ensures SpendOver(SpentCategories(es), es) == TotalExpenditure(es)
    ensures forall c :: c in CategoryTotals(es) ==> CategoryTotals(es)[c] == TotalExpenditure(OfCategory(es, c))
  {
    SpendOverCover(SpentCategories(es), es);
    forall c | c in CategoryTotals(es)
      ensures CategoryTotals(es)[c] == TotalExpenditure(OfCategory(es, c))
    {
      CategoryTotalIsSum(es, c);
    }
  }

  /** The prediction for the ledger's current totals and per-category spending. */
  function AdviseFor(l: Ledger, cost: int, months: int, savings: int): (a: Assessment)
    requires months >= 1
    ensures a.Affordable? <==> RemainingBalance(l) as real >= RequiredBalance(cost, months, savings)
    ensures a.Shortfall? ==>
      && a.deficit > 0.0
      && RemainingBalance(l) as real + a.deficit == RequiredBalance(cost, months, savings)
      && a.plan == Reduce(CategoryTotals(l.expenses), a.deficit)
    ensures a.Shortfall? ==> forall s :: s in a.plan.suggestions ==> s.category in CategorySet(l.expenses)
  {
    var a := Assess(TotalEarnings(l.members), TotalExpenditure(l.expenses), CategoryTotals(l.expenses), cost, months, savings);
    if a.Shortfall? then
      ReduceSpentOnly(CategoryTotals(l.expenses), a.deficit);
      a
    else a
  }

  /**
   * Earnings 10000, expenditure 9500, an item of 6000 over 6 months and 1000
   * saved a month leave a deficit of 1500; with Food at 1000 and
   * Entertainment at 500, Entertainment is cut first (100), then Food (200),
   * and 1200 is left with no essential category to cut.
   */
  lemma ShortfallExample()
    ensures Assess(10000, 9500, map["Food" := 1000, "Entertainment" := 500], 6000, 6, 1000)
      == Shortfall(1500.0, Plan([Suggestion("Entertainment", 100.0), Suggestion("Food", 200.0)], 1200.0))
  {
    var spend := map["Food" := 1000, "Entertainment" := 500];
    assert RequiredBalance(6000, 6, 1000) == 2000.0;
    assert "Transportation" !in spend && "Miscellaneous" !in spend;
    assert ReductionPass(NonEssential[3..], NonEssentialRate, spend, 1200.0) == Plan([], 1200.0);
    assert ReductionPass(NonEssential[2..], NonEssentialRate, spend, 1200.0) == Plan([], 1200.0);
    assert Cut(1000, NonEssentialRate, 1400.0) == 200.0;
    assert ReductionPass(NonEssential[1..], NonEssentialRate, spend, 1400.0)
      == Plan([Suggestion("Food", 200.0)], 1200.0);
    assert Cut(500, NonEssentialRate, 1500.0) == 100.0;
    assert "Housing" !in spend && "Medical" !in spend && "Investment" !in spend;
    assert ReductionPass(Essential, EssentialRate, spend, 1200.0) == Plan([], 1200.0);
  }
}

=== FILE: entry.dfy ===
/**
 * The two state changes the data-entry page makes on the ledger: the
 * "Add Member" button, which updates a member of the same name or adds a new
 * one, and the "Add Expense" button, which adds an expense only when the
 * remaining balance covers it.
 */
module Entry {
  import opened Wrappers
  import opened Seqs
  import opened Records
  import opened Tracker

  function MemberName(m: Member): string { m.info.name }

  function Names(ms: seq<Member>): seq<string> {
    Map(ms, MemberName)
  }

  /**
   * The "Add Member" button: the first member whose name equals `name` gets
   * the new status and earnings; when there is none, a new member is added.
   */
  function UpsertMember(l: Ledger, name: string, earning: bool, earnings: int): (r: Ledger)
    requires WellKeyed(l)
    ensures name !in Names(l.members) ==>
      && |r.members| == |l.members| + 1
      && r.members[..|l.members|] == l.members
      && r.members[|l.members|].info == MemberInfo(name, earning, earnings)
    ensures name in Names(l.members) ==> |r.members| == |l.members|
    ensures forall i :: FirstAt(Names(l.members), name, i) ==>
      && r.members[i] == Member(l.members[i].id, MemberInfo(name, earning, earnings))
      && forall j :: 0 <= j < |l.members| && j != i ==> r.members[j] == l.members[j]
    ensures name in Names(r.members)
    ensures r.memberStore == Some(MemberTableOf(r.members))
    ensures r.expenses == l.expenses && r.expenseStore == l.expenseStore
    ensures WellKeyed(r) && (Valid(l) ==> Valid(r))
  {
    match IndexOf(Names(l.members), name)
    case None => AddMember(l, name, earning, earnings)
    case Some(i) =>
      UpdateOneMember(l, i, earning, earnings);
      UpdateMember(l, l.members[i].id, earning, earnings)
  }

  /** With distinct ids, updating the member at `i` by its id changes that member alone. */
  lemma UpdateOneMember(l: Ledger, i: nat, earning: bool, earnings: int)
    requires WellKeyed(l) && i < |l.members|
    ensures var r := UpdateMember(l, l.members[i].id, earning, earnings);
      && r.members[i] == Member(l.members[i].id, l.members[i].info.(earning := earning, earnings := earnings))
      && forall j :: 0 <= j < |l.members| && j != i ==> r.members[j] == l.members[j]
  {
    forall j | 0 <= j < |l.members| && j != i
      ensures l.members[j].id != l.members[i].id
    {
      assert Map(l.members, MemberId)[j] != Map(l.members, MemberId)[i];
    }
  }


  /** With names distinct before an upsert, they are distinct after it. */
  lemma UpsertKeepsNamesDistinct(l: Ledger, name: string, earning: bool, earnings: int)
    requires WellKeyed(l) && Distinct(Names(l.members))
    ensures Distinct(Names(UpsertMember(l, name, earning, earnings).members))
  {
    var r := UpsertMember(l, name, earning, earnings);
    match IndexOf(Names(l.members), name)
    case None =>
      assert r.members == l.members + [r.members[|l.members|]];
      MapSnoc(l.members, r.members[|l.members|], MemberName);
      DistinctSnoc(Names(l.members), name);
    case Some(i) =>
      assert FirstAt(Names(l.members), name, i);
      assert forall j :: 0 <= j < |l.members| ==> Names(r.members)[j] == Names(l.members)[j];
      assert Names(r.members) == Names(l.members);
  }

  /** Why the "Add Expense" button refuses. */
  datatype Refusal = ZeroValue | InsufficientBalance

  /**
   * The "Add Expense" button: a zero value is refused, so is a value above the
   * remaining balance; otherwise the expense is appended.
   */
  function GuardedAddExpense(l: Ledger, value: int, category: string, description: string, date: string): (r: Result<Ledger, Refusal>)
    ensures r.Success? <==> value != 0 && value <= RemainingBalance(l)
    ensures value == 0 ==> r == Failure(ZeroValue)
    ensures value != 0 && value > RemainingBalance(l) ==> r == Failure(InsufficientBalance)
    ensures r.Success? ==> r.value == AddExpense(l, value, category, description, date)
    ensures r.Success? ==> TotalExpenditure(r.value.expenses) <= TotalEarnings(r.value.members)
  {
    if value == 0 then Failure(ZeroValue)
    else if value > RemainingBalance(l) then Failure(InsufficientBalance)
    else
      AddExpenseRaisesExpenditure(l, value, category, description, date);
      Success(AddExpense(l, value, category, description, date))
  }
}

=== FILE: numerals.dfy ===
/**
 * Decimal text for integers: what Python's `str` writes for an `int` and what
 * `int(text)` reads back. Only the plain decimal syntax is modelled: an
 * optional sign followed by one or more ASCII digits.
 */
module Numerals {
  import opened Wrappers

  predicate IsDigit(c: char) {
    '0' <= c <= '9'
  }

  predicate AllDigits(s: string) {
    forall i :: 0 <= i < |s| ==> IsDigit(s[i])
  }

  function DigitChar(d: nat): (c: char)
    requires d < 10
    ensures IsDigit(c)
  {
    (('0' as int) + d) as char
  }

  function DigitValue(c: char): (d: nat)
    requires IsDigit(c)
    ensures d < 10 && DigitChar(d) == c
  {
    (c as int) - ('0' as int)
  }

  /** The digits of `n`, most significant first, without leading zeros. */
  function NatText(n: nat): (s: string)
    ensures 1 <= |s| && AllDigits(s)
    ensures s[0] == '0' ==> n == 0
    decreases n
  {
    if n < 10 then [DigitChar(n)] else NatText(n / 10) + [DigitChar(n % 10)]
  }

  /** The number a string of digits denotes (leading zeros allowed). */
  function DigitsValue(s: string): nat
    requires AllDigits(s)
    decreases |s|
  {
    if s == [] then 0 else 10 * DigitsValue(s[..|s| - 1]) + DigitValue(s[|s| - 1])
  }

  /** `str(n)` for a Python `int`: a minus sign for negatives, then the digits. */
  function IntText(n: int): (s: string)
    ensures 1 <= |s|
    ensures s[0] == '-' <==> n < 0
    ensures n >= 0 ==> AllDigits(s)
    ensures forall i :: 0 < i < |s| ==> IsDigit(s[i])
    ensures s[0] == '0' ==> s == "0"
    ensures n < 0 ==> |s| >= 2 && s[1] != '0'
  {
    if n < 0 then "-" + NatText(-n) else NatText(n)
  }

  /** `int(s)`: `None` where Python raises `ValueError`. */
  function ParseInt(s: string): (r: Option<int>)
    ensures s == [] ==> r.None?
    ensures r.Some? ==> forall i :: 0 < i < |s| ==> IsDigit(s[i])
    ensures r.Some? ==> IsDigit(s[0]) || (|s| >= 2 && (s[0] == '-' || s[0] == '+'))
    ensures r.Some? && s[0] != '-' ==> r.value >= 0
    ensures |s| >= 1 && AllDigits(s) ==> r == Some(DigitsValue(s))
    ensures |s| >= 2 && (s[0] == '-' || s[0] == '+') && AllDigits(s[1..]) ==>
      r == Some(if s[0] == '-' then -(DigitsValue(s[1..]) as int) else DigitsValue(s[1..]) as int)
  {
    if |s| >= 2 && (s[0] == '-' || s[0] == '+') && AllDigits(s[1..]) then
      var magnitude: int := DigitsValue(s[1..]);
      Some(if s[0] == '-' then -magnitude else magnitude)
    else if |s| >= 1 && AllDigits(s) then
      Some(DigitsValue(s))
    else
      None
  }

  lemma {:induction false} NatTextRoundTrip(n: nat)
    ensures DigitsValue(NatText(n)) == n
    decreases n
  {
    if n >= 10 {
      var s := NatText(n);
      assert s[..|s| - 1] == NatText(n / 10);
      NatTextRoundTrip(n / 10);
    }
  }

  /** Reading back what `str` wrote gives the same integer. */
  lemma ParseIntText(n: int)
    ensures ParseInt(IntText(n)) == Some(n)
  {
    var s := IntText(n);
    if n < 0 {
      var t := NatText(-n);
      assert s == "-" + t;
      assert s[1..] == t && AllDigits(t);
      NatTextRoundTrip(-n);
      assert DigitsValue(s[1..]) == -n;
    } else {
      assert s == NatText(n) && IsDigit(s[0]) && AllDigits(s);
      NatTextRoundTrip(n);
    }
  }

  /** A character that is neither a digit nor a leading sign makes `int` fail. */
  lemma ParseIntRejects(s: string, i: nat)
    requires i < |s| && !IsDigit(s[i])
    requires i > 0 || (s[0] != '-' && s[0] != '+') || |s| == 1
    ensures ParseInt(s) == None
  {
  }
}

=== FILE: records.dfy ===
/**
 * The two record kinds of the household ledger: a family member and an
 * expense. The `...Info` types hold exactly the fields a store row carries;
 * `Member` and `Expense` add an `id` that stands for the identity of the
 * in-memory object, so that "remove this record" means one record even when
 * two records hold equal fields.
 */
module Records {

  datatype MemberInfo = MemberInfo(name: string, earning: bool, earnings: int)

  /** `date` is kept in its text form (`YYYY-MM-DD`), which is what a reload yields. */
  datatype ExpenseInfo = ExpenseInfo(value: int, category: string, description: string, date: string)

  datatype Member = Member(id: nat, info: MemberInfo)

  datatype Expense = Expense(id: nat, info: ExpenseInfo)
}

=== FILE: seqs.dfy ===
/** Sequence helpers the ledger model shares: projection, sums, search. */
module Seqs {
  import opened Wrappers

  /** `f` applied to every element of `s`, in order. */
  function Map<T, U>(s: seq<T>, f: T -> U): (r: seq<U>)
    ensures |r| == |s|
    ensures forall i :: 0 <= i < |s| ==> r[i] == f(s[i])
  {
    seq(|s|, i requires 0 <= i < |s| => f(s[i]))
  }

  lemma MapSnoc<T, U>(s: seq<T>, x: T, f: T -> U)
    ensures Map(s + [x], f) == Map(s, f) + [f(x)]
  {
  }

  /** The sum of `f` over the elements of `s` (Python's `sum(f(x) for x in s)`). */
  function SumOf<T>(s: seq<T>, f: T -> int): (r: int)
    ensures s == [] ==> r == 0
    ensures |s| == 1 ==> r == f(s[0])
    ensures (forall i :: 0 <= i < |s| ==> f(s[i]) >= 0) ==> r >= 0
  {
    if s == [] then 0 else f(s[0]) + SumOf(s[1..], f)
  }

  lemma {:induction false} SumOfConcat<T>(a: seq<T>, b: seq<T>, f: T -> int)
    ensures SumOf(a + b, f) == SumOf(a, f) + SumOf(b, f)
    decreases |a|
  {
    if a == [] {
      assert a + b == b;
    } else {
      assert (a + b)[1..] == a[1..] + b;
      SumOfConcat(a[1..], b, f);
    }
  }

  /** `s` split around its element at `i`. */
  lemma SplitAt<T>(s: seq<T>, i: nat)
    requires i < |s|
    ensures s == s[..i] + ([s[i]] + s[i + 1..])
    ensures ([s[i]] + s[i + 1..])[1..] == s[i + 1..]
  {
  }

  /** `s` without its element at `i`: the elements before `i`, then those after it. */
  lemma Without<T>(s: seq<T>, i: nat)
    requires i < |s|
    ensures |s[..i] + s[i + 1..]| == |s| - 1
    ensures forall j :: 0 <= j < |s| - 1 ==> (s[..i] + s[i + 1..])[j] == if j < i then s[j] else s[j + 1]
  {
  }

  /** Projecting `s` without its element at `i` projects the same elements. */
  lemma MapWithout<T, U>(s: seq<T>, i: nat, f: T -> U)
    requires i < |s|
    ensures Map(s[..i] + s[i + 1..], f) == Map(s, f)[..i] + Map(s, f)[i + 1..]
  {
    Without(s, i);
    Without(Map(s, f), i);
  }

  /** Removing the element at `i` lowers the sum by exactly its contribution. */
  lemma SumOfRemove<T>(s: seq<T>, i: nat, f: T -> int)
    requires i < |s|
    ensures SumOf(s[..i] + s[i + 1..], f) == SumOf(s, f) - f(s[i])
  {
    SplitAt(s, i);
    SumOfConcat(s[..i], [s[i]] + s[i + 1..], f);
    SumOfConcat(s[..i], s[i + 1..], f);
  }

  /** Replacing one element changes the sum by the difference of the two contributions. */
  lemma {:induction false} SumOfReplace<T>(s: seq<T>, t: seq<T>, i: nat, f: T -> int)
    requires |s| == |t| && i < |s|
    requires forall j :: 0 <= j < |s| && j != i ==> s[j] == t[j]
    ensures SumOf(t, f) == SumOf(s, f) - f(s[i]) + f(t[i])
    decreases |s|
  {
    if i == 0 {
      assert s[1..] == t[1..];
    } else {
      SumOfReplace(s[1..], t[1..], i - 1, f);
    }
  }

  /** The position of the first occurrence of `x` in `s`, if any. */
  function IndexOf<T(==)>(s: seq<T>, x: T): (r: Option<nat>)
    ensures r.None? <==> x !in s
    ensures r.Some? ==> r.value < |s| && s[r.value] == x
    ensures r.Some? ==> forall j :: 0 <= j < r.value ==> s[j] != x
  {
    if s == [] then None
    else if s[0] == x then Some(0)
    else match IndexOf(s[1..], x)
      case None => None
      case Some(i) => Some(i + 1)
  }

  /** Putting the same element in front keeps one sequence a prefix of another. */
  lemma PrefixCons<T>(x: T, a: seq<T>, b: seq<T>)
    requires a <= b
    ensures [x] + a <= [x] + b
  {
    assert ([x] + b)[..|a| + 1] == [x] + b[..|a|];
  }

  /** No element occurs twice. */
  predicate Distinct<T(==)>(s: seq<T>) {
    forall i, j :: 0 <= i < j < |s| ==> s[i] != s[j]
  }

  /** Appending an element not yet present keeps the elements distinct. */
  lemma DistinctSnoc<T>(s: seq<T>, x: T)
    requires Distinct(s) && x !in s
    ensures Distinct(s + [x])
  {
  }

  /** A common front keeps one sequence a prefix of another. */
  lemma PrefixConcat<T>(x: seq<T>, a: seq<T>, b: seq<T>)
    requires a <= b
    ensures x + a <= x + b
  {
    assert (x + b)[..|x| + |a|] == x + b[..|a|];
  }

  /** A prefix of `a` is a prefix of `a` followed by anything. */
  lemma PrefixExtend<T>(p: seq<T>, a: seq<T>, b: seq<T>)
    requires p <= a
    ensures p <= a + b
  {
    assert (a + b)[..|p|] == a[..|p|];
  }

  /** A prefix of a sequence without repetitions has none either. */
  lemma DistinctPrefix<T>(p: seq<T>, s: seq<T>)
    requires p <= s && Distinct(s)
    ensures Distinct(p)
  {
    forall i, j | 0 <= i < j < |p| ensures p[i] != p[j] {
      assert p[i] == s[i] && p[j] == s[j];
    }
  }

  /** `i` is the first position of `x` in `s`. */
  predicate FirstAt<T(==)>(s: seq<T>, x: T, i: int) {
    0 <= i < |s| && s[i] == x && forall j :: 0 <= j < i ==> s[j] != x
  }

  /** Dropping the first element keeps the rest distinct, and the first is not among them. */
  lemma DistinctTail<T>(s: seq<T>)
    requires s != [] && Distinct(s)
    ensures Distinct(s[1..]) && s[0] !in s[1..]
  {
    forall i, j | 0 <= i < j < |s[1..]| ensures s[1..][i] != s[1..][j] {
      assert s[1..][i] == s[i + 1] && s[1..][j] == s[j + 1];
    }
  }

  /** Removing the element at `i` keeps the rest distinct, and that element is no longer present. */
  lemma DistinctWithout<T>(s: seq<T>, i: nat)
    requires i < |s| && Distinct(s)
    ensures Distinct(s[..i] + s[i + 1..]) && s[i] !in s[..i] + s[i + 1..]
  {
    Without(s, i);
  }
}

=== FILE: store.dfy ===
/**
 * The row-level content of the two stores (the members file and the expenses
 * file): what a save writes and how a load reads it back. A store is a table
 * of rows of text fields; the character-level CSV encoding is abstracted away.
 */
module Store {
  import opened Wrappers
  import opened Seqs
  import opened Numerals
  import opened Records

  /** One line of a store, as its list of fields. */
  type Row = seq<string>

  /** A whole store; its first row is the header. */
  type Table = seq<Row>

  const NameKey: string := "Name"
  const StatusKey: string := "Earning Status"
  const EarningsKey: string := "Earnings"
  const ValueKey: string := "Value"
  const CategoryKey: string := "Category"
  const DescriptionKey: string := "Description"
  const DateKey: string := "Date"

  const MemberHeader: Row := [NameKey, StatusKey, EarningsKey]
  const ExpenseHeader: Row := [ValueKey, CategoryKey, DescriptionKey, DateKey]

  /** The text Python writes for the two booleans. */
  const TrueToken: string := "True"
  const FalseToken: string := "False"

  function StatusText(b: bool): string {
    if b then TrueToken else FalseToken
  }

  function MemberRow(m: MemberInfo): Row {
    [m.name, StatusText(m.earning), IntText(m.earnings)]
  }

  function ExpenseRow(e: ExpenseInfo): Row {
    [IntText(e.value), e.category, e.description, e.date]
  }

  /** What a save of the member list writes. */
  function MemberTable(ms: seq<MemberInfo>): Table {
    [MemberHeader] + Map(ms, MemberRow)
  }

  /** What a save of the expense list writes. */
  function ExpenseTable(es: seq<ExpenseInfo>): Table {
    [ExpenseHeader] + Map(es, ExpenseRow)
  }

  /**
   * A saved member store is the header `Name, Earning Status, Earnings`
   * followed by one row per member, in list order, with the status written as
   * `True`/`False` and the earnings in decimal.
   */
  lemma MemberTableLayout(ms: seq<MemberInfo>)
    ensures |MemberTable(ms)| == |ms| + 1
    ensures MemberTable(ms)[0] == ["Name", "Earning Status", "Earnings"]
    ensures forall i :: 0 <= i < |ms| ==>
      MemberTable(ms)[i + 1] == [ms[i].name, if ms[i].earning then "True" else "False", IntText(ms[i].earnings)]
  {
  }

  /**
   * A saved expense store is the header `Value, Category, Description, Date`
   * followed by one row per expense, in list order, with the value in decimal.
   */
  lemma ExpenseTableLayout(es: seq<ExpenseInfo>)
    ensures |ExpenseTable(es)| == |es| + 1
    ensures ExpenseTable(es)[0] == ["Value", "Category", "Description", "Date"]
    ensures forall i :: 0 <= i < |es| ==>
      ExpenseTable(es)[i + 1] == [IntText(es[i].value), es[i].category, es[i].description, es[i].date]
  {
  }

  // ---------------------------------------------------------------------------
  // Reading rows back, field by field, as a dictionary-per-row CSV reader does.
  // ---------------------------------------------------------------------------

  /** The last header position holding `key` (a later column of the same name wins). */
  function ColumnOf(header: Row, key: string): (r: Option<nat>)
    ensures r.None? <==> key !in header
    ensures r.Some? ==> r.value < |header| && header[r.value] == key
    ensures r.Some? ==> forall j :: r.value < j < |header| ==> header[j] != key
  {
    if header == [] then None
    else if header[|header| - 1] == key then Some(|header| - 1)
    else ColumnOf(header[..|header| - 1], key)
  }

  /**
   * What a row holds under a column name: no such column (a lookup error),
   * no value because the row is shorter than the header, or a text.
   */
  datatype Cell = NoColumn | NoValue | Text(text: string)

  function Lookup(header: Row, row: Row, key: string): (c: Cell)
    ensures c.NoColumn? <==> key !in header
    ensures c.Text? ==> c.text in row
  {
    match ColumnOf(header, key)
    case None => NoColumn
    case Some(j) => if j < |row| then Text(row[j]) else NoValue
  }

  /** Why a stored row cannot be read back. */
  datatype LoadError =
    | MissingColumn(key: string)
    | MissingValue(key: string)
    | NotAnInteger(key: string, text: string)

  function TextField(header: Row, row: Row, key: string): (r: Result<string, LoadError>)
    ensures r.Success? <==> Lookup(header, row, key).Text?
    ensures r.Success? ==> r.value == Lookup(header, row, key).text
  {
    match Lookup(header, row, key)
    case NoColumn => Failure(MissingColumn(key))
    case NoValue => Failure(MissingValue(key))
    case Text(t) => Success(t)
  }

  /** A flag is true exactly when its text is the token `True`; a short row reads as false. */
  function FlagField(header: Row, row: Row, key: string): (r: Result<bool, LoadError>)
    ensures r.Failure? <==> key !in header
    ensures r.Success? ==> (r.value <==> Lookup(header, row, key) == Text(TrueToken))
  {
    match Lookup(header, row, key)
    case NoColumn => Failure(MissingColumn(key))
    case NoValue => Success(false)
    case Text(t) => Success(t == TrueToken)
  }

  function IntField(header: Row, row: Row, key: string): (r: Result<int, LoadError>)
    ensures r.Success? <==> Lookup(header, row, key).Text? && ParseInt(Lookup(header, row, key).text).Some?
    ensures r.Success? ==> Some(r.value) == ParseInt(Lookup(header, row, key).text)
  {
    match Lookup(header, row, key)
    case NoColumn => Failure(MissingColumn(key))
    case NoValue => Failure(MissingValue(key))
    case Text(t) =>
      match ParseInt(t)
      case None => Failure(NotAnInteger(key, t))
      case Some(n) => Success(n)
  }

  /** One member row: name, then the status flag, then the earnings integer. */
  function ParseMemberRow(header: Row, row: Row): (r: Result<MemberInfo, LoadError>)
    ensures r.Success? <==>
      && Lookup(header, row, NameKey).Text?
      && StatusKey in header
      && IntField(header, row, EarningsKey).Success?
    ensures r.Success? ==>
      && Lookup(header, row, NameKey) == Text(r.value.name)
      && (r.value.earning <==> Lookup(header, row, StatusKey) == Text(TrueToken))
      && ParseInt(Lookup(header, row, EarningsKey).text) == Some(r.value.earnings)
  {
    var name :- TextField(header, row, NameKey);
    var earning :- FlagField(header, row, StatusKey);
    var earnings :- IntField(header, row, EarningsKey);
    Success(MemberInfo(name, earning, earnings))
  }

  /** One expense row: the value integer, then category, description and date as text. */
  function ParseExpenseRow(header: Row, row: Row): (r: Result<ExpenseInfo, LoadError>)
    ensures r.Success? <==>
      && IntField(header, row, ValueKey).Success?
      && Lookup(header, row, CategoryKey).Text?
      && Lookup(header, row, DescriptionKey).Text?
      && Lookup(header, row, DateKey).Text?
    ensures r.Success? ==>
      && ParseInt(Lookup(header, row, ValueKey).text) == Some(r.value.value)
      && Lookup(header, row, CategoryKey) == Text(r.value.category)
      && Lookup(header, row, DescriptionKey) == Text(r.value.description)
      && Lookup(header, row, DateKey) == Text(r.value.date)
  {
    var value :- IntField(header, row, ValueKey);
    var category :- TextField(header, row, CategoryKey);
    var description :- TextField(header, row, DescriptionKey);
    var date :- TextField(header, row, DateKey);
    Success(ExpenseInfo(value, category, description, date))
  }

  /** The rows that are not blank, in order: the rows a CSV dictionary reader yields. */
  function NonBlank(rows: seq<Row>): (nb: seq<Row>)
    ensures forall row :: row in nb <==> row in rows && row != []
    ensures |nb| <= |rows|
  {
    if rows == [] then []
    else if rows[0] == [] then NonBlank(rows[1..])
    else [rows[0]] + NonBlank(rows[1..])
  }

  /**
   * The data rows under `header`, in order: blank rows are skipped, and the
   * first row that cannot be read stops the load with its error.
   */
  function ParseRecords<T>(header: Row, rows: seq<Row>, parseRow: (Row, Row) -> Result<T, LoadError>): (r: Result<seq<T>, LoadError>)
    ensures r.Success? <==> forall k :: 0 <= k < |rows| && rows[k] != [] ==> parseRow(header, rows[k]).Success?
    ensures r.Failure? ==> exists k :: FirstBadRow(header, rows, parseRow, k) && parseRow(header, rows[k]) == Failure(r.error)
    ensures r.Success? ==> (r.value == [] <==> forall k :: 0 <= k < |rows| ==> rows[k] == [])
    ensures r.Success? ==> |r.value| == |NonBlank(rows)|
    ensures r.Success? ==> forall i :: 0 <= i < |r.value| ==> parseRow(header, NonBlank(rows)[i]) == Success(r.value[i])
    decreases |rows|
  {
    if rows == [] then Success([])
    else if rows[0] == [] then ParseRecords(header, rows[1..], parseRow)
    else
      var x :- parseRow(header, rows[0]);
      var rest :- ParseRecords(header, rows[1..], parseRow);
      Success([x] + rest)
  }

  /** `rows[k]` is the first non-blank row that does not parse. */
  ghost predicate FirstBadRow<T>(header: Row, rows: seq<Row>, parseRow: (Row, Row) -> Result<T, LoadError>, k: int) {
    && 0 <= k < |rows|
    && rows[k] != []
    && parseRow(header, rows[k]).Failure?
    && forall j :: 0 <= j < k && rows[j] != [] ==> parseRow(header, rows[j]).Success?
  }

  /**
   * A load of one store: an absent or empty store yields no records; otherwise
   * the first row is the header and the rest are the data rows.
   */
  function ParseTable<T>(store: Option<Table>, parseRow: (Row, Row) -> Result<T, LoadError>): (r: Result<seq<T>, LoadError>)
    ensures store.None? ==> r == Success([])
    ensures r.Success? && r.value == [] ==> store.None? || forall k :: 1 <= k < |store.value| ==> store.value[k] == []
    ensures store == Some([]) ==> r == Success([])
    ensures store.Some? && store.value != [] ==> r == ParseRecords(store.value[0], store.value[1..], parseRow)
  {
    match store
    case None => Success([])
    case Some(t) => if t == [] then Success([]) else ParseRecords(t[0], t[1..], parseRow)
  }

  // ---------------------------------------------------------------------------
  // Round trips and rejections.
  // ---------------------------------------------------------------------------

  /** The header names are pairwise different, so each key finds its own column. */
  lemma MemberRowRoundTrip(m: MemberInfo)
    ensures ParseMemberRow(MemberHeader, MemberRow(m)) == Success(m)
  {
    var row := MemberRow(m);
    assert ColumnOf(MemberHeader, EarningsKey) == Some(2);
    assert ColumnOf(MemberHeader, StatusKey) == Some(1);
    assert ColumnOf(MemberHeader, NameKey) == Some(0);
    ParseIntText(m.earnings);
    assert FalseToken != TrueToken by { assert FalseToken[0] != TrueToken[0]; }
  }

  lemma ExpenseRowRoundTrip(e: ExpenseInfo)
    ensures ParseExpenseRow(ExpenseHeader, ExpenseRow(e)) == Success(e)
  {
    assert ColumnOf(ExpenseHeader, DateKey) == Some(3);
    assert ColumnOf(ExpenseHeader, DescriptionKey) == Some(2);
    assert ColumnOf(ExpenseHeader, CategoryKey) == Some(1);
    assert ColumnOf(ExpenseHeader, ValueKey) == Some(0);
    ParseIntText(e.value);
  }

  /** Reading back rows rendered by `render` gives the records back, in order. */
  lemma {:induction false} ParseRenderedRows<T>(header: Row, xs: seq<T>, render: T -> Row, parseRow: (Row, Row) -> Result<T, LoadError>)
    requires forall x :: render(x) != [] && parseRow(header, render(x)) == Success(x)
    ensures ParseRecords(header, Map(xs, render), parseRow) == Success(xs)
    decreases |xs|
  {
    if xs != [] {
      assert Map(xs, render)[1..] == Map(xs[1..], render);
      ParseRenderedRows(header, xs[1..], render, parseRow);
      assert [xs[0]] + xs[1..] == xs;
    }
  }

  /** Loading a saved member store reproduces the same members in the same order. */
  lemma MemberTableRoundTrip(ms: seq<MemberInfo>)
    ensures ParseTable(Some(MemberTable(ms)), ParseMemberRow) == Success(ms)
  {
    forall m: MemberInfo
      ensures MemberRow(m) != [] && ParseMemberRow(MemberHeader, MemberRow(m)) == Success(m)
    {
      MemberRowRoundTrip(m);
    }
    ParseRenderedRows(MemberHeader, ms, MemberRow, ParseMemberRow);
    assert MemberTable(ms)[1..] == Map(ms, MemberRow);
  }

  /** Loading a saved expense store reproduces the same expenses in the same order. */
  lemma ExpenseTableRoundTrip(es: seq<ExpenseInfo>)
    ensures ParseTable(Some(ExpenseTable(es)), ParseExpenseRow) == Success(es)
  {
    forall e: ExpenseInfo
      ensures ExpenseRow(e) != [] && ParseExpenseRow(ExpenseHeader, ExpenseRow(e)) == Success(e)
    {
      ExpenseRowRoundTrip(e);
    }
    ParseRenderedRows(ExpenseHeader, es, ExpenseRow, ParseExpenseRow);
    assert ExpenseTable(es)[1..] == Map(es, ExpenseRow);
  }

  /** A member row whose Earnings text is not an integer makes the whole load fail. */
  lemma BadEarningsRejected(t: Table, k: nat)
    requires |t| >= 2 && t[0] == MemberHeader
    requires 1 <= k < |t| && |t[k]| == 3 && ParseInt(t[k][2]).None?
    ensures ParseTable(Some(t), ParseMemberRow).Failure?
  {
    assert ColumnOf(MemberHeader, EarningsKey) == Some(2);
    assert t[1..][k - 1] == t[k];
  }

  /** An expense row whose Value text is not an integer makes the whole load fail. */
  lemma BadValueRejected(t: Table, k: nat)
    requires |t| >= 2 && t[0] == ExpenseHeader
    requires 1 <= k < |t| && |t[k]| == 4 && ParseInt(t[k][0]).None?
    ensures ParseTable(Some(t), ParseExpenseRow).Failure?
  {
    assert ColumnOf(ExpenseHeader, ValueKey) == Some(0);
    assert t[1..][k - 1] == t[k];
  }

  /** A store holding only a header (and blank rows) yields no records. */
  lemma {:induction false} BlankRowsParseEmpty<T>(header: Row, rows: seq<Row>, parseRow: (Row, Row) -> Result<T, LoadError>)
    requires forall k :: 0 <= k < |rows| ==> rows[k] == []
    ensures ParseRecords(header, rows, parseRow) == Success([])
    decreases |rows|
  {
    if rows != [] {
      BlankRowsParseEmpty(header, rows[1..], parseRow);
    }
  }
}

=== FILE: tracker.dfy ===
/**
 * The household ledger (`FamilyExpenseTracker`): the member list and the
 * expense list, the two stores they are saved to, the mutations, the totals,
 * and construction by loading both stores.
 *
 * Every mutation rewrites the store of the collection it touched with the
 * header and one row per record; `Valid` is the invariant that the stores and
 * the in-memory lists agree.
 */
module Tracker {
  import opened Wrappers
  import opened Seqs
  import opened Records
  import opened Store

  datatype Ledger = Ledger(
    members: seq<Member>,
    expenses: seq<Expense>,
    memberStore: Option<Table>,
    expenseStore: Option<Table>,
    nextId: nat)

  /** The error `list.remove` raises when the record is not in the list. */
  datatype Missing = Missing(id: nat)

  function MemberId(m: Member): nat { m.id }
  function ExpenseId(e: Expense): nat { e.id }
  function MemberInfoOf(m: Member): MemberInfo { m.info }
  function ExpenseInfoOf(e: Expense): ExpenseInfo { e.info }
  function MemberEarnings(m: Member): int { m.info.earnings }
  function ExpenseValue(e: Expense): int { e.info.value }

  function MemberTableOf(ms: seq<Member>): Table {
    MemberTable(Map(ms, MemberInfoOf))
  }

  function ExpenseTableOf(es: seq<Expense>): Table {
    ExpenseTable(Map(es, ExpenseInfoOf))
  }

  /** A store with no records in it: absent, or nothing after the header but blank rows. */
  predicate Dormant(store: Option<Table>) {
    store.None? || forall k :: 1 <= k < |store.value| ==> store.value[k] == []
  }

  /** Record ids are distinct within each list and below the next id to hand out. */
  predicate WellKeyed(l: Ledger) {
    && Distinct(Map(l.members, MemberId))
    && Distinct(Map(l.expenses, ExpenseId))
    && (forall i :: 0 <= i < |l.members| ==> l.members[i].id < l.nextId)
    && (forall i :: 0 <= i < |l.expenses| ==> l.expenses[i].id < l.nextId)
  }

  /**
   * Each store holds exactly its collection, or the collection is empty and
   * the store has not been rewritten since it was found without records.
   */
  predicate Saved(l: Ledger) {
    && (l.memberStore == Some(MemberTableOf(l.members)) || (l.members == [] && Dormant(l.memberStore)))
    && (l.expenseStore == Some(ExpenseTableOf(l.expenses)) || (l.expenses == [] && Dormant(l.expenseStore)))
  }

  /** Every ledger the program can reach. */
  predicate Valid(l: Ledger) {
    WellKeyed(l) && Saved(l)
  }

  // ---------------------------------------------------------------------------
  // Totals
  // ---------------------------------------------------------------------------

  /** `calculate_total_earnings`: the members' earnings added up. */
  function TotalEarnings(ms: seq<Member>): (t: int)
    ensures ms == [] ==> t == 0
    ensures |ms| == 1 ==> t == ms[0].info.earnings
    ensures (forall i :: 0 <= i < |ms| ==> ms[i].info.earnings >= 0) ==> t >= 0
  {
    SumOf(ms, MemberEarnings)
  }

  /** `calculate_total_expenditure`: the expenses' values added up. */
  function TotalExpenditure(es: seq<Expense>): (t: int)
    ensures es == [] ==> t == 0
    ensures |es| == 1 ==> t == es[0].info.value
    ensures (forall i :: 0 <= i < |es| ==> es[i].info.value >= 0) ==> t >= 0
  {
    SumOf(es, ExpenseValue)
  }

  /** Earnings left after the recorded expenses. */
  function RemainingBalance(l: Ledger): int {
    TotalEarnings(l.members) - TotalExpenditure(l.expenses)
  }

  // ---------------------------------------------------------------------------
  // Member mutations
  // ---------------------------------------------------------------------------

  /** Appends one new member with a fresh id and saves the member store. */
  function AddMember(l: Ledger, name: string, earning: bool, earnings: int): (r: Ledger)
    ensures |r.members| == |l.members| + 1
    ensures r.members[..|l.members|] == l.members
    ensures r.members[|l.members|].info == MemberInfo(name, earning, earnings)
    ensures r.memberStore == Some(MemberTableOf(r.members))
    ensures r.expenses == l.expenses && r.expenseStore == l.expenseStore
    ensures WellKeyed(l) ==> WellKeyed(r) && r.members[|l.members|].id !in Map(l.members, MemberId)
    ensures Valid(l) ==> Valid(r)
  {
    var ms := l.members + [Member(l.nextId, MemberInfo(name, earning, earnings))];
    l.(members := ms, memberStore := Some(MemberTableOf(ms)), nextId := l.nextId + 1)
  }

  /**
   * Sets the earning status and earnings of the member with this id and saves
   * the member store. A member that is not in the list changes nothing in it,
   * but the store is rewritten all the same.
   */
  function UpdateMember(l: Ledger, id: nat, earning: bool, earnings: int): (r: Ledger)
    ensures |r.members| == |l.members|
    ensures forall i :: 0 <= i < |l.members| ==>
      r.members[i].id == l.members[i].id && r.members[i].info.name == l.members[i].info.name
    ensures forall i :: 0 <= i < |l.members| && l.members[i].id != id ==> r.members[i] == l.members[i]
    ensures forall i :: 0 <= i < |l.members| && l.members[i].id == id ==>
      r.members[i].info.earning == earning && r.members[i].info.earnings == earnings
    ensures r.memberStore == Some(MemberTableOf(r.members))
    ensures r.expenses == l.expenses && r.expenseStore == l.expenseStore
    ensures Valid(l) ==> Valid(r)
  {
    var ms := Map(l.members, (m: Member) =>
      if m.id == id then Member(m.id, m.info.(earning := earning, earnings := earnings)) else m);
    assert Map(ms, MemberId) == Map(l.members, MemberId);
    l.(members := ms, memberStore := Some(MemberTableOf(ms)))
  }

  /** Removes the first member with this id and saves; fails when there is none. */
  function DeleteMember(l: Ledger, id: nat): (r: Result<Ledger, Missing>)
    ensures r.Failure? <==> id !in Map(l.members, MemberId)
    ensures r.Failure? ==> r.error == Missing(id)
    ensures r.Success? ==> forall i :: FirstAt(Map(l.members, MemberId), id, i) ==>
      r.value.members == l.members[..i] + l.members[i + 1..]
    ensures r.Success? ==> r.value.memberStore == Some(MemberTableOf(r.value.members))
    ensures r.Success? ==> r.value.expenses == l.expenses && r.value.expenseStore == l.expenseStore
  {
    match IndexOf(Map(l.members, MemberId), id)
    case None => Failure(Missing(id))
    case Some(i) =>
      assert FirstAt(Map(l.members, MemberId), id, i);
      var ms := l.members[..i] + l.members[i + 1..];
      Success(l.(members := ms, memberStore := Some(MemberTableOf(ms))))
  }

  // ---------------------------------------------------------------------------
  // Expense mutations
  // ---------------------------------------------------------------------------

  /**
   * The source's `merge_similar_category`: despite its name it never merges;
   * it appends one new expense with a fresh id and saves the expense store.
   */
  function AddExpense(l: Ledger, value: int, category: string, description: string, date: string): (r: Ledger)
    ensures |r.expenses| == |l.expenses| + 1
    ensures r.expenses[..|l.expenses|] == l.expenses
    ensures r.expenses[|l.expenses|].info == ExpenseInfo(value, category, description, date)
    ensures r.expenseStore == Some(ExpenseTableOf(r.expenses))
    ensures r.members == l.members && r.memberStore == l.memberStore
    ensures WellKeyed(l) ==> WellKeyed(r) && r.expenses[|l.expenses|].id !in Map(l.expenses, ExpenseId)
    ensures Valid(l) ==> Valid(r)
  {
    var es := l.expenses + [Expense(l.nextId, ExpenseInfo(value, category, description, date))];
    l.(expenses := es, expenseStore := Some(ExpenseTableOf(es)), nextId := l.nextId + 1)
  }

  /** Removes the first expense with this id and saves; fails when there is none. */
  function DeleteExpense(l: Ledger, id: nat): (r: Result<Ledger, Missing>)
    ensures r.Failure? <==> id !in Map(l.expenses, ExpenseId)
    ensures r.Failure? ==> r.error == Missing(id)
    ensures r.Success? ==> forall i :: FirstAt(Map(l.expenses, ExpenseId), id, i) ==>
      r.value.expenses == l.expenses[..i] + l.expenses[i + 1..]
    ensures r.Success? ==> r.value.expenseStore == Some(ExpenseTableOf(r.value.expenses))
    ensures r.Success? ==> r.value.members == l.members && r.value.memberStore == l.memberStore
  {
    match IndexOf(Map(l.expenses, ExpenseId), id)
    case None => Failure(Missing(id))
    case Some(i) =>
      assert FirstAt(Map(l.expenses, ExpenseId), id, i);
      var es := l.expenses[..i] + l.expenses[i + 1..];
      Success(l.(expenses := es, expenseStore := Some(ExpenseTableOf(es))))
  }

  // ---------------------------------------------------------------------------
  // Deletion keeps the invariant and removes exactly the target
  // ---------------------------------------------------------------------------

  /** After a successful delete the ledger is still valid and no member has that id. */
  lemma DeleteMemberKeepsValid(l: Ledger, id: nat)
    requires Valid(l) && DeleteMember(l, id).Success?
    ensures Valid(DeleteMember(l, id).value)
    ensures id !in Map(DeleteMember(l, id).value.members, MemberId)
    ensures |DeleteMember(l, id).value.members| == |l.members| - 1
  {
    var ids := Map(l.members, MemberId);
    var i := IndexOf(ids, id).value;
    var rest := l.members[..i] + l.members[i + 1..];
    var r := l.(members := rest, memberStore := Some(MemberTableOf(rest)));
    assert DeleteMember(l, id) == Success(r);
    Without(l.members, i);
    MapWithout(l.members, i, MemberId);
    DistinctWithout(ids, i);
    assert WellKeyed(r);
    assert Saved(r);
  }

  /** After a successful delete the ledger is still valid and no expense has that id. */
  lemma DeleteExpenseKeepsValid(l: Ledger, id: nat)
    requires Valid(l) && DeleteExpense(l, id).Success?
    ensures Valid(DeleteExpense(l, id).value)
    ensures id !in Map(DeleteExpense(l, id).value.expenses, ExpenseId)
    ensures |DeleteExpense(l, id).value.expenses| == |l.expenses| - 1
  {
    var ids := Map(l.expenses, ExpenseId);
    var i := IndexOf(ids, id).value;
    var rest := l.expenses[..i] + l.expenses[i + 1..];
    var r := l.(expenses := rest, expenseStore := Some(ExpenseTableOf(rest)));
    assert DeleteExpense(l, id) == Success(r);
    Without(l.expenses, i);
    MapWithout(l.expenses, i, ExpenseId);
    DistinctWithout(ids, i);
    assert WellKeyed(r);
    assert Saved(r);
  }

  // ---------------------------------------------------------------------------
  // How the mutations move the totals
  // ---------------------------------------------------------------------------

  lemma AddMemberRaisesEarnings(l: Ledger, name: string, earning: bool, earnings: int)
    ensures TotalEarnings(AddMember(l, name, earning, earnings).members) == TotalEarnings(l.members) + earnings
  {
    var ms := AddMember(l, name, earning, earnings).members;
    assert ms == l.members + [ms[|l.members|]];
    SumOfConcat(l.members, [ms[|l.members|]], MemberEarnings);
  }

  lemma DeleteMemberLowersEarnings(l: Ledger, id: nat)
    requires DeleteMember(l, id).Success?
    ensures forall i :: FirstAt(Map(l.members, MemberId), id, i) ==>
      TotalEarnings(DeleteMember(l, id).value.members) == TotalEarnings(l.members) - l.members[i].info.earnings
  {
    forall i | FirstAt(Map(l.members, MemberId), id, i)
      ensures TotalEarnings(DeleteMember(l, id).value.members) == TotalEarnings(l.members) - l.members[i].info.earnings
    {
      SumOfRemove(l.members, i, MemberEarnings);
    }
  }

  /** With distinct ids, an update moves total earnings by the target's change of earnings. */
  lemma UpdateMemberShiftsEarnings(l: Ledger, id: nat, earning: bool, earnings: int, i: nat)
    requires Distinct(Map(l.members, MemberId))
    requires i < |l.members| && l.members[i].id == id
    ensures TotalEarnings(UpdateMember(l, id, earning, earnings).members)
      == TotalEarnings(l.members) - l.members[i].info.earnings + earnings
  {
    var ms := UpdateMember(l, id, earning, earnings).members;
    forall j | 0 <= j < |ms| && j != i
      ensures ms[j] == l.members[j]
    {
      assert Map(l.members, MemberId)[j] != Map(l.members, MemberId)[i];
    }
    SumOfReplace(l.members, ms, i, MemberEarnings);
  }

  lemma AddExpenseRaisesExpenditure(l: Ledger, value: int, category: string, description: string, date: string)
    ensures TotalExpenditure(AddExpense(l, value, category, description, date).expenses)
      == TotalExpenditure(l.expenses) + value
  {
    var es := AddExpense(l, value, category, description, date).expenses;
    assert es == l.expenses + [es[|l.expenses|]];
    SumOfConcat(l.expenses, [es[|l.expenses|]], ExpenseValue);
  }

  lemma DeleteExpenseLowersExpenditure(l: Ledger, id: nat)
    requires DeleteExpense(l, id).Success?
    ensures forall i :: FirstAt(Map(l.expenses, ExpenseId), id, i) ==>
      TotalExpenditure(DeleteExpense(l, id).value.expenses) == TotalExpenditure(l.expenses) - l.expenses[i].info.value
  {
    forall i | FirstAt(Map(l.expenses, ExpenseId), id, i)
      ensures TotalExpenditure(DeleteExpense(l, id).value.expenses) == TotalExpenditure(l.expenses) - l.expenses[i].info.value
    {
      SumOfRemove(l.expenses, i, ExpenseValue);
    }
  }

  // ---------------------------------------------------------------------------
  // Construction: load both stores, re-adding every row through the mutations
  // ---------------------------------------------------------------------------

  /** Adds the members one after the other, as the load loop does. */
  function AddMembers(l: Ledger, infos: seq<MemberInfo>): (r: Ledger)
    ensures Map(r.members, MemberInfoOf) == Map(l.members, MemberInfoOf) + infos
    ensures r.expenses == l.expenses && r.expenseStore == l.expenseStore
    ensures infos == [] ==> r == l
    ensures infos != [] ==> r.memberStore == Some(MemberTableOf(r.members))
    ensures WellKeyed(l) ==> WellKeyed(r)
    decreases |infos|
  {
    if infos == [] then l
    else
      var l' := AddMember(l, infos[0].name, infos[0].earning, infos[0].earnings);
      assert l'.members == l.members + [l'.members[|l.members|]];
      MapSnoc(l.members, l'.members[|l.members|], MemberInfoOf);
      assert Map(l.members, MemberInfoOf) + infos == Map(l.members, MemberInfoOf) + [infos[0]] + infos[1..];
      AddMembers(l', infos[1..])
  }

  /** Adds the expenses one after the other, as the load loop does. */
  function AddExpenses(l: Ledger, infos: seq<ExpenseInfo>): (r: Ledger)
    ensures Map(r.expenses, ExpenseInfoOf) == Map(l.expenses, ExpenseInfoOf) + infos
    ensures r.members == l.members && r.memberStore == l.memberStore
    ensures infos == [] ==> r == l
    ensures infos != [] ==> r.expenseStore == Some(ExpenseTableOf(r.expenses))
    ensures WellKeyed(l) ==> WellKeyed(r)
    decreases |infos|
  {
    if infos == [] then l
    else
      var l' := AddExpense(l, infos[0].value, infos[0].category, infos[0].description, infos[0].date);
      assert l'.expenses == l.expenses + [l'.expenses[|l.expenses|]];
      MapSnoc(l.expenses, l'.expenses[|l.expenses|], ExpenseInfoOf);
      assert Map(l.expenses, ExpenseInfoOf) + infos == Map(l.expenses, ExpenseInfoOf) + [infos[0]] + infos[1..];
      AddExpenses(l', infos[1..])
  }

  /**
   * Building the tracker from the two stores as found: members first, then
   * expenses. A row that cannot be read makes construction fail.
   */
  function Open(memberStore: Option<Table>, expenseStore: Option<Table>): (r: Result<Ledger, LoadError>)
    ensures r.Success? <==>
      ParseTable(memberStore, ParseMemberRow).Success? && ParseTable(expenseStore, ParseExpenseRow).Success?
    ensures r.Success? ==> Valid(r.value)
    ensures r.Success? ==>
      && Map(r.value.members, MemberInfoOf) == ParseTable(memberStore, ParseMemberRow).value
      && Map(r.value.expenses, ExpenseInfoOf) == ParseTable(expenseStore, ParseExpenseRow).value
    ensures memberStore.None? && expenseStore.None? ==> r == Success(Ledger([], [], None, None, 0))
  {
    var memberInfos :- ParseTable(memberStore, ParseMemberRow);
    var withMembers := AddMembers(Ledger([], [], memberStore, expenseStore, 0), memberInfos);
    var expenseInfos :- ParseTable(expenseStore, ParseExpenseRow);
    Success(AddExpenses(withMembers, expenseInfos))
  }

  /** A saved member store reads back as the member fields. */
  lemma ReloadMembers(l: Ledger)
    requires Saved(l)
    ensures ParseTable(l.memberStore, ParseMemberRow) == Success(Map(l.members, MemberInfoOf))
  {
    if l.memberStore == Some(MemberTableOf(l.members)) {
      MemberTableRoundTrip(Map(l.members, MemberInfoOf));
    } else if l.memberStore.Some? && l.memberStore.value != [] {
      BlankRowsParseEmpty(l.memberStore.value[0], l.memberStore.value[1..], ParseMemberRow);
    }
  }

  /** A saved expense store reads back as the expense fields. */
  lemma ReloadExpenses(l: Ledger)
    requires Saved(l)
    ensures ParseTable(l.expenseStore, ParseExpenseRow) == Success(Map(l.expenses, ExpenseInfoOf))
  {
    if l.expenseStore == Some(ExpenseTableOf(l.expenses)) {
      ExpenseTableRoundTrip(Map(l.expenses, ExpenseInfoOf));
    } else if l.expenseStore.Some? && l.expenseStore.value != [] {
      BlankRowsParseEmpty(l.expenseStore.value[0], l.expenseStore.value[1..], ParseExpenseRow);
    }
  }

  /**
   * Save then load: re-opening the stores of a valid ledger succeeds, yields
   * the same member and expense fields in the same order, and leaves both
   * stores as they were.
   */
  lemma ReopenRoundTrip(l: Ledger)
    requires Valid(l)
    ensures Open(l.memberStore, l.expenseStore).Success?
    ensures Map(Open(l.memberStore, l.expenseStore).value.members, MemberInfoOf) == Map(l.members, MemberInfoOf)
    ensures Map(Open(l.memberStore, l.expenseStore).value.expenses, ExpenseInfoOf) == Map(l.expenses, ExpenseInfoOf)
    ensures Open(l.memberStore, l.expenseStore).value.memberStore == l.memberStore
    ensures Open(l.memberStore, l.expenseStore).value.expenseStore == l.expenseStore
  {
    var mi, ei := Map(l.members, MemberInfoOf), Map(l.expenses, ExpenseInfoOf);
    ReloadMembers(l);
    ReloadExpenses(l);
    var w := AddMembers(Ledger([], [], l.memberStore, l.expenseStore, 0), mi);
    var o := AddExpenses(w, ei);
    assert Open(l.memberStore, l.expenseStore) == Success(o);
    assert MemberTableOf(w.members) == MemberTable(mi) && o.memberStore == w.memberStore;
    assert ExpenseTableOf(o.expenses) == ExpenseTable(ei);
  }


}

=== FILE: wrappers.dfy ===
/** Failure-carrying return types shared by the ledger model. */
module Wrappers {

  /** A value that may be missing. */
  datatype Option<+T> = None | Some(value: T)

  /** A value, or the error that stopped its computation; usable with `:-`. */
  datatype Result<+R, +E> = Success(value: R) | Failure(error: E) {

    predicate IsFailure() {
      Failure?
    }

    function PropagateFailure<U>(): Result<U, E>
      requires Failure?
    {
      Failure(error)
    }

    function Extract(): R
      requires Success?
    {
      value
    }
  }
}
